=== FILE: README.md ===
# Snake simulation model

A Dafny model of the discrete core of a Snake game written for a learning
agent: the direction cycle and action set (`constants.py`), the `Food` and
`Snake` objects (`game_objects.py`) and the agent step engine `SnakeGameAI`
(`game.py`), with drawing, event polling, the window and the clock removed.

Every mutating method becomes a pure function from the old object to the new
one. The engine's `play_action` is the function
`PlayAction(game, action, draw) -> StepResult(game', reward, gameOver, score)`,
where `draw` stands for the random source that re-places the food.

Modules, one per file:

- `Optional` (optional.dfy): `Option`, used for `randrange`'s `ValueError`
  and `__getitem__`'s `IndexError`.
- `Arith` (arith.dfy): uniqueness of Euclidean division and remainder, and
  what follows from it. These are proof helpers only.
- `Constants` (constants.py): `Direction`, `Action`, `Point`, the screen and
  cell sizes, the clockwise cycle `ClockWiseArray`, Python's `.index` (`IndexOf`),
  and the turn algebra.
- `Grid`: one-cell steps (`Step`), board bounds, grid alignment and cell
  adjacency. The snake and the engine share these.
- `PyRandom`: Python's `random.randrange(start, stop, step)`. It uses
  Python's floor division for the range length and raises `ValueError` on an
  empty range or a zero step. The value `_randbelow` would return is a
  caller-supplied `draw`, taken modulo the range length.
- `GameObjects` (game_objects.py): `Food` and `Snake`.
- `Game` (game.py): `SnakeGameAI`. It also defines `Episode`, which runs a
  sequence of inputs until the game ends. The source has no such driver; it
  is there to state whole-episode properties.

Points worth knowing:

- The clockwise tuple is `(RIGHT, DOWN, LEFT, UP)`, while the enum values are
  `UP=0, RIGHT=1, DOWN=2, LEFT=3`. A direction's position in the tuple
  therefore never equals its enum value: it is one less, mod 4. The successor
  in the cycle is still the member whose value is one more, mod 4
  (`CycleIndexVersusEnumValue`).
- The engine's bounds test in `is_collision` (`x > w - CELL_SIZE`) and the
  snake's own test (`x >= width`) are guaranteed to agree on grid points of
  a board made of whole cells (`CellOnBoardIffInBounds`). They differ where
  `w - CELL_SIZE < x < w` (or the same for y); `OffGridCellOverhangs` gives
  such a point.
- When the game ends, the new head has already been inserted. The returned
  state keeps it: the body grows by one, the score is unchanged and the
  reward is -10.
- The self-collision test looks at `snake[1:]` after the new head is
  inserted, which is the whole body from before the move. Moving onto the
  cell the tail occupies now therefore ends the game (`TailCellCollides`).
- The timeout compares the incremented frame counter with 100 times the
  length including the new head.
- Food placement never looks at the snake. Food can land on the body, and
  nothing in the model claims otherwise.
- At `game.py:88` the engine calls `self.food.randomize_position(self.snake)`.
  The definition at `game_objects.py:49` takes no argument, so Python would
  raise `TypeError` there. The model treats the call as a plain re-placement
  from the random source, as `randomize_position` does without an argument.

## Model

| member | source | states |
|---|---|---|
| Constants.DirectionValue | constants.py:24-28 | the enum values of UP, RIGHT, DOWN, LEFT lie in 0..3, and each is one more, mod 4, than the direction's position in the clockwise tuple |
| Constants.ActionValue | constants.py:31-34 | the enum values 0, 1 and 2 belong exactly to TURN_LEFT, TURN_RIGHT and GO_STRAIGHT |
| Constants.IndexOf | game_objects.py:81 | `.index` returns the first position holding the value, and fails exactly when the value is absent |
| Constants.CycleIndex | constants.py:39 | every direction has a position in the clockwise tuple holding that direction, so the lookup in the turn code never raises |
| Constants.ClockWiseIsPermutation | constants.py:24-39 | the tuple has four entries, each direction appears exactly once, and `.index` succeeds for every direction |
| Constants.Clockwise | game.py:144-145 | `CLOCK_WISE_ARRAY[(idx + 1) % 4]` is the direction one place further round the tuple, and its enum value is one more, mod 4 |
| Constants.CounterClockwise | game.py:147-148 | `CLOCK_WISE_ARRAY[(idx - 1) % 4]` is the direction one place back round the tuple, and its enum value is one less, mod 4 |
| Constants.ClockwiseOrder | constants.py:39 | the clockwise successor order is RIGHT→DOWN→LEFT→UP→RIGHT |
| Constants.CounterClockwiseOrder | game_objects.py:79-86 | a left turn follows RIGHT→UP→LEFT→DOWN→RIGHT |
| Constants.CycleIndexVersusEnumValue | constants.py:24-39 | a direction's position in the tuple is never its enum value (it is value−1 mod 4), but the clockwise successor has enum value +1 mod 4 |
| Constants.ActionHasThreeMembers | constants.py:31-34 | every action is TURN_LEFT, TURN_RIGHT or GO_STRAIGHT, and the enum values tell them apart |
| Constants.ScreenIsWholeCells | constants.py:7-11 | the cell size is positive and the 600×400 screen is exactly 30×20 cells |
| Constants.TurnsAreInverse | game_objects.py:79-95 | a right turn followed by a left turn restores the direction, and so does a left turn followed by a right turn |
| Constants.FourTurnsAreIdentity | game_objects.py:79-95 | four right turns, or four left turns, give back the starting direction |
| Constants.TurnNeverReverses | game_objects.py:79-95 | a single turn always changes the direction and never yields its opposite |
| Grid.Step | game_objects.py:99-107 | a step keeps one coordinate and moves the other by exactly the step size |
| Grid.StepOppositeUndoes | game_objects.py:99-107 | stepping the same distance in the opposite direction returns to the start |
| Grid.AdjacentIffStep | game_objects.py:99-107 | two points are neighbouring cells exactly when one is a single step from the other in some direction |
| Grid.StepKeepsAlignment | game.py:152-164 | a step of one cell keeps a grid-aligned point on the grid |
| Grid.CellOnBoardIffInBounds | game.py:103-109 | for aligned points on a whole-cell board, "the cell fits on the board" (the engine's test) and "the corner lies in [0,w)×[0,h)" (the snake's test) are equivalent |
| Grid.OffGridCellOverhangs | game.py:103-109 | off the grid the two bound tests disagree: (630, 0) is inside a 640-wide board but its cell overhangs |
| PyRandom.RandRange | game_objects.py:52-53 | `randrange(start, stop, step)` raises exactly when the step is zero or the range holds no value, and otherwise returns a value of the range: a whole number of steps from `start`, on the near side of `stop` |
| PyRandom.RandRangeComplete | game_objects.py:52-53 | every value of the range is returned for some draw |
| GameObjects.RandomizePosition | game_objects.py:49-54 | placement succeeds exactly when both ranges are non-empty, it changes only the position, and with a positive size the new position is aligned and in [0, w − size)×[0, h − size) |
| GameObjects.NewFood | game_objects.py:33-37 | a food records the screen size and cell size, construction fails exactly when placement would, the position is the one `randomize_position` draws from the given random values, and with a positive size the food is aligned and in [0, w − size)×[0, h − size) |
| GameObjects.NewFoodCanLandAnywhereOnGrid | game_objects.py:33-37 | a new food can start on every aligned cell in [0, w − size)×[0, h − size) |
| GameObjects.FoodOnGrid | game_objects.py:49-54 | with a positive size, both coordinates are multiples of the size in [0, screen − size); the last column and row are never chosen |
| GameObjects.FoodCanLandAnywhereOnGrid | game_objects.py:49-54 | every aligned cell in [0, w − size)×[0, h − size) is a possible placement |
| GameObjects.NewSnake | game_objects.py:65-68 | a new snake has one segment at (x, y) and heads RIGHT |
| GameObjects.Len | game_objects.py:141-142 | `len(snake)` is the number of indices −len ≤ i < len at which `snake[i]` succeeds |
| GameObjects.GetItem | game_objects.py:141-145 | indexing succeeds exactly for −len ≤ i < len; negative indices count from the end |
| GameObjects.NegativeIndexAgrees | game_objects.py:144-145 | index i and index i − len name the same segment, and indices one full length beyond either end raise |
| GameObjects.Head | game_objects.py:71-73 | the head is item 0, which is also item −len |
| GameObjects.ChangeDirection | game_objects.py:75-77 | the new heading is the one given, and the body and size are unchanged |
| GameObjects.ChangeDirectionCanReverse | game_objects.py:75-77 | `change_direction` has no reversal check: the opposite heading is accepted |
| GameObjects.TurnSnakeLeft | game_objects.py:79-86 | the returned direction is the stored one, a right turn from it gives back the old heading, it is neither the old heading nor its opposite, and only the heading changes |
| GameObjects.TurnSnakeRight | game_objects.py:88-95 | the returned direction is the stored one, a left turn from it gives back the old heading, it is neither the old heading nor its opposite, and only the heading changes |
| GameObjects.TurnsRestoreSnake | game_objects.py:79-95 | right-then-left and left-then-right give back the same snake, and so do four right turns |
| GameObjects.Move | game_objects.py:97-110 | length is preserved; old segment i becomes new segment i+1; the new head is one `size` away: UP decreases y, DOWN increases y, RIGHT increases x, LEFT decreases x, the other coordinate unchanged |
| GameObjects.MoveKeepsConnected | game_objects.py:97-110 | moving keeps a body of neighbouring cells made of neighbouring cells |
| GameObjects.Grow | game_objects.py:125-127 | length grows by one, all old segments stay in place, and the last segment is still the old last segment |
| GameObjects.GrowStacksTail | game_objects.py:125-127 | after growing, the last two segments coincide, so the body is no longer a chain of neighbouring cells |
| GameObjects.BodyNeverEmpty | game_objects.py:65-127 | a new snake has a segment, and turning, moving and growing a non-empty snake leave it non-empty, so the head and tail lookups never raise |
| GameObjects.CollidesWithBoundaries | game_objects.py:112-115 | true exactly when the head lies outside [0, width)×[0, height) |
| GameObjects.CollidesWithSelf | game_objects.py:117-119 | true exactly when the head equals some segment at index 1 or later |
| GameObjects.CollidesWithFood | game_objects.py:121-123 | true exactly when some segment, head included, is on the food |
| Game.Reset | game.py:42-58 | reset succeeds exactly when food can be placed. It puts the head at the board centre, with two segments each one step to the left, heading RIGHT, score and frame counter 0, and the engine invariant holding (which includes food aligned in [0, w − CELL)×[0, h − CELL)); the food is the one `Food(w, h, CELL_SIZE)` places from the given random values |
| Game.DecodeAction | game.py:141-148 | exactly [1,0,0] is straight and exactly [0,1,0] is a right turn; every other vector is a left turn |
| Game.DecodeOneHot | game.py:136-148 | decoding the one-hot vector [1,0,0], [0,1,0] or [0,0,1] of an action gives back straight, right or left |
| Game.NewDirection | game.py:138-150 | straight keeps the heading, right gives the next clockwise heading, left the previous one, and the result is never the reverse |
| Game.MoveHead | game.py:134-164 | the heading becomes the resolved one, the head moves one cell along it to a neighbouring cell, and nothing else changes |
| Game.Rest | game.py:111 | has exactly the members of `snake[1:]`: the segments at index 1 and later, none for an empty list |
| Game.IsCollision | game.py:98-114 | true exactly when the cell at `pt` does not fit on the board or `pt` equals a segment at index 1 or later |
| Game.PlayAction | game.py:60-96 | the frame counter rises by one. The game ends exactly on collision of the new head with the old body or the board edge, or on timeout (frame > 100 × (len + 1)); then reward −10, score unchanged, head kept. Eating gives score +1, reward 10, keeps the head and re-places the food from the draw. Otherwise reward 0, score unchanged and the body shifts by one |
| Game.TailCellCollides | game.py:73-90 | moving onto the current tail cell ends the game, since the tail is popped only afterwards |
| Game.TimeoutEndsGame | game.py:79-82 | once the counter reaches 100 × (len + 1), the next step ends the game whatever the action |
| Game.StepAccounting | game.py:76-90 | the reward is −10, 0 or 10. It is 10 exactly when the score rises by one, and −10 exactly when the game ends. Length grows by one exactly when the reward is non-zero |
| Game.PlayActionKeepsValid | game.py:60-96 | every step preserves the engine invariant: a chain of at least three neighbouring cells led by `head`, placeable food for this board lying aligned in [0, w − CELL)×[0, h − CELL), non-negative counters |
| Game.PlayActionKeepsHeadAligned | game.py:152-164 | a grid-aligned head stays aligned |
| Game.IsCollisionMatchesSnakeChecks | game.py:98-114 | on a whole-cell board with an aligned head, `is_collision` at the head equals the snake's boundary test or self test |
| Game.PlainStepIsSnakeMove | game.py:89-90 | a step that neither ends the game nor eats changes the body exactly as `Snake.move` does |
| Game.EatingPutsSnakeOnFood | game.py:85-88 | when the engine eats, the snake's own `check_collision_with_food` holds of the eaten food and the reward is 10 |
| Game.Episode | game.py:60-96 | over any run of steps, the score never decreases, the frame counter counts the steps, length grows by the food eaten plus one if the game ended, and total reward is 10 per food minus 10 on game over |
| Game.EpisodeKeepsValid | game.py:60-96 | the engine invariant holds after any run of steps |
| Game.DefaultReset | game.py:33-58 | on the default 640×480 board, reset succeeds and lays out (320,240), (300,240), (280,240) heading RIGHT with score 0 |
| Game.DefaultFirstStep | game.py:60-96 | from there, going straight with the food elsewhere gives body (340,240), (320,240), (300,240), reward 0, score 0 and no game over. Four right turns return to RIGHT |
| Game.StraightFromCentre | game.py:60-96 | on any game laid out as the default reset lays it out, going straight with the food elsewhere gives the body (340,240), (320,240), (300,240), reward 0, score 0 and no game over |

## Left out

- Drawing: the `draw` methods, `_update_ui`, display and font setup, colours. These are rendering side effects.
- Event polling, `pygame.quit`/`sys.exit` and `clock.tick` in `play_action`. These are I/O and pacing.
- The random source. `random.randrange` is modelled exactly, but the number `_randbelow` returns is supplied by the caller as a `Draw`.
- The action vector: `np.array_equal` on a one-hot list becomes `DecodeAction` over `seq<int>`. Float entries are not modelled.
- Game.Reset: requires an even width and height. The source halves them with float division, and the model keeps positions integral.
- Game.PlayAction: requires the food to be placeable on its board. Every constructed `Food` is, because construction already placed it.
- GameObjects.Head, GameObjects.Move, GameObjects.Grow, GameObjects.CollidesWithBoundaries, GameObjects.CollidesWithSelf: require a non-empty body instead of modelling the `IndexError` that `body_segments[0]` or `[-1]` would raise. Every `Snake` has a body that is never empty: construction gives one segment, and moving, growing and turning never empty it (`GameObjects.BodyNeverEmpty`).
- Food non-overlap. Neither `randomize_position` nor the engine avoids the snake, so no such guarantee is stated. The argument passed at `game.py:88` is dropped, as described above.
- The constants `MOVES_PER_SEGMENT`, `SHOULD_RESTART_ON_GAME_OVER` and `TICK_RATE`. The engine modelled here does not use them.
- Python's unbounded `int` needs no width modelling. Dafny's `int` is unbounded too.

=== FILE: arith.dfy ===
/** Small facts about Euclidean division that the solver does not find on
    its own when the divisor is a variable. */
module Arith {

  /** Division and remainder are determined by any decomposition
      `a == q * c + r` with `0 <= r < c`. */
  lemma DivModUnique(a: int, c: int, q: int, r: int)
    requires c > 0 && a == q * c + r && 0 <= r < c
    ensures a / c == q && a % c == r
  {
    var q0, r0 := a / c, a % c;
    assert a == q0 * c + r0;
    if q0 > q {
      MulAtLeast(q0 - q, c);
    } else if q0 < q {
      MulAtLeast(q - q0, c);
    }
  }

  lemma MulAtLeast(k: int, c: int)
    requires k >= 1 && c > 0
    ensures k * c >= c
  {
    assert k * c == (k - 1) * c + c;
  }

  lemma MulMonotone(a: int, b: int, c: int)
    requires a <= b && c >= 0
    ensures a * c <= b * c
  {
    assert b * c - a * c == (b - a) * c;
  }

  /** A multiple of `c` leaves no remainder. */
  lemma MultipleMod(k: int, c: int)
    requires c > 0
    ensures (k * c) % c == 0 && (k * c) / c == k
  {
    DivModUnique(k * c, c, k, 0);
  }

  /** Adding a multiple of `c` does not change the remainder. */
  lemma ModShift(a: int, m: int, c: int)
    requires c > 0
    ensures (a + m * c) % c == a % c
  {
    var q := a / c;
    assert a == q * c + a % c;
    assert a + m * c == (q + m) * c + a % c;
    DivModUnique(a + m * c, c, q + m, a % c);
  }
}

=== FILE: constants.dfy ===
/** The game's enumerations, configuration constants and the clockwise
    direction cycle on which every turn is built. */
module Constants {
  import opened Optional

  /** Board configuration. */
  const ScreenWidth: int := 600
  const ScreenHeight: int := 400
  const CellSize: int := 20

  datatype Direction = Up | Right | Down | Left

  datatype Action = TurnLeft | TurnRight | GoStraight

  /** A board position in pixels. */
  datatype Point = Point(x: int, y: int)

  /** The numeric value the `Direction` enum assigns to each member. */
  function DirectionValue(d: Direction): (v: int)
    ensures 0 <= v < 4
    ensures v == (CycleIndex(d) + 1) % 4
  {
    match d
    case Up => 0
    case Right => 1
    case Down => 2
    case Left => 3
  }

  /** The numeric value the `Action` enum assigns to each member. */
  function ActionValue(a: Action): (v: int)
    ensures 0 <= v < 3
    ensures (v == 0 <==> a == TurnLeft) && (v == 1 <==> a == TurnRight) && (v == 2 <==> a == GoStraight)
  {
    match a
    case TurnLeft => 0
    case TurnRight => 1
    case GoStraight => 2
  }

  /** The directions in clockwise order, starting from RIGHT. */
  const ClockWiseArray: seq<Direction> := [Right, Down, Left, Up]

  /** The direction pointing the other way. */
  function Opposite(d: Direction): Direction
  {
    match d
    case Up => Down
    case Down => Up
    case Left => Right
    case Right => Left
  }

  /** Python's `list.index`/`tuple.index`: the first position holding `x`,
      or None where Python raises `ValueError`. */
  function IndexOf<T(==)>(s: seq<T>, x: T): (r: Option<nat>)
    ensures r.Some? ==> r.value < |s| && s[r.value] == x
    ensures r.Some? ==> forall j :: 0 <= j < r.value ==> s[j] != x
    ensures r.None? <==> x !in s
    decreases |s|
  {
    if |s| == 0 then None
    else if s[0] == x then Some(0)
    else
      match IndexOf(s[1..], x)
      case None => None
      case Some(i) => Some(i + 1)
  }

  /** The position of `d` in the clockwise cycle; the lookup never fails. */
  function CycleIndex(d: Direction): (i: nat)
    ensures i < |ClockWiseArray| && ClockWiseArray[i] == d
  {
    assert d == ClockWiseArray[0] || d == ClockWiseArray[1] || d == ClockWiseArray[2] || d == ClockWiseArray[3];
    IndexOf(ClockWiseArray, d).value
  }

  /** One step clockwise in the cycle. */
  function Clockwise(d: Direction): (r: Direction)
    ensures CycleIndex(r) == (CycleIndex(d) + 1) % 4
    ensures DirectionValue(r) == (DirectionValue(d) + 1) % 4
  {
    ClockWiseArray[(CycleIndex(d) + 1) % 4]
  }

  /** One step counter-clockwise in the cycle. Python's `%` floors, which for
      the positive modulus 4 agrees with Dafny's Euclidean `%`. */
  function CounterClockwise(d: Direction): (r: Direction)
    ensures CycleIndex(r) == (CycleIndex(d) + 3) % 4
    ensures DirectionValue(r) == (DirectionValue(d) + 3) % 4
  {
    ClockWiseArray[(CycleIndex(d) - 1) % 4]
  }

  /** Every direction occurs in the cycle exactly once, so the index lookup
      is total and its answer unique. */
  lemma ClockWiseIsPermutation()
    ensures |ClockWiseArray| == 4
    ensures forall d: Direction :: multiset(ClockWiseArray)[d] == 1
    ensures forall d: Direction :: IndexOf(ClockWiseArray, d).Some?
    ensures forall i, j :: 0 <= i < j < |ClockWiseArray| ==> ClockWiseArray[i] != ClockWiseArray[j]
  {
    forall d: Direction ensures multiset(ClockWiseArray)[d] == 1 {
      var m := multiset{Right, Down, Left, Up};
      assert multiset(ClockWiseArray) == m;
      match d
      case Right => assert m[Right] == 1;
      case Down => assert m[Down] == 1;
      case Left => assert m[Left] == 1;
      case Up => assert m[Up] == 1;
    }
    forall d: Direction ensures IndexOf(ClockWiseArray, d).Some? {
      var _ := CycleIndex(d);
    }
  }

  /** Clockwise order is RIGHT -> DOWN -> LEFT -> UP -> RIGHT. */
  lemma ClockwiseOrder()
    ensures Clockwise(Right) == Down && Clockwise(Down) == Left
    ensures Clockwise(Left) == Up && Clockwise(Up) == Right
  {
  }

  /** A direction's place in the cycle is never its enum value (it is one
      less, mod 4); the successor in the cycle is nonetheless the member
      whose value is one more, mod 4. */
  lemma CycleIndexVersusEnumValue(d: Direction)
    ensures CycleIndex(d) != DirectionValue(d)
    ensures CycleIndex(d) == (DirectionValue(d) + 3) % 4
    ensures DirectionValue(Clockwise(d)) == (DirectionValue(d) + 1) % 4
  {
  }

  /** The action enum has exactly three members with distinct values. */
  lemma ActionHasThreeMembers(a: Action)
    ensures a == TurnLeft || a == TurnRight || a == GoStraight
    ensures forall b: Action :: ActionValue(a) == ActionValue(b) ==> a == b
  {
  }

  /** The cell size is positive and tiles the configured screen exactly. */
  lemma ScreenIsWholeCells()
    ensures CellSize > 0
    ensures ScreenWidth % CellSize == 0 && ScreenHeight % CellSize == 0
    ensures ScreenWidth / CellSize == 30 && ScreenHeight / CellSize == 20
  {
  }

  /** Counter-clockwise order is RIGHT -> UP -> LEFT -> DOWN -> RIGHT. */
  lemma CounterClockwiseOrder()
    ensures CounterClockwise(Right) == Up && CounterClockwise(Up) == Left
    ensures CounterClockwise(Left) == Down && CounterClockwise(Down) == Right
  {
  }

  /** Turning right then left, or left then right, restores the direction. */
  lemma TurnsAreInverse(d: Direction)
    ensures CounterClockwise(Clockwise(d)) == d
    ensures Clockwise(CounterClockwise(d)) == d
  {
    ClockwiseOrder();
    CounterClockwiseOrder();
  }

  /** Four right turns (and four left turns) are the identity. */
  lemma FourTurnsAreIdentity(d: Direction)
    ensures Clockwise(Clockwise(Clockwise(Clockwise(d)))) == d
    ensures CounterClockwise(CounterClockwise(CounterClockwise(CounterClockwise(d)))) == d
  {
    ClockwiseOrder();
    CounterClockwiseOrder();
  }

  /** A single turn changes the direction but never reverses it. */
  lemma TurnNeverReverses(d: Direction)
    ensures Clockwise(d) != d && Clockwise(d) != Opposite(d)
    ensures CounterClockwise(d) != d && CounterClockwise(d) != Opposite(d)
  {
  }
}

=== FILE: game.dfy ===
/** The agent-facing engine `SnakeGameAI`: reset, the relative-turn move and
    the one-step transition `play_action`, with the random source, the event
    queue, the display and the clock taken out. */
module Game {
  import opened Optional
  import opened Constants
  import opened Grid
  import opened GameObjects

  /** The engine's fields. `head` is kept alongside `snake`, as in the
      source. */
  datatype Game = Game(
    w: int,
    h: int,
    direction: Direction,
    head: Point,
    snake: seq<Point>,
    score: int,
    food: Food,
    frameIteration: int
  )

  /** What `play_action` returns, together with the game it leaves behind. */
  datatype StepResult = StepResult(game: Game, reward: int, gameOver: bool, score: int)

  /** The states `reset` and `play_action` produce: a connected body of at
      least three cells led by `head`, food configured for this board,
      placeable on it and lying on its grid, and non-negative counters. */
  predicate Valid(g: Game)
  {
    && |g.snake| >= 3
    && g.snake[0] == g.head
    && Connected(g.snake, CellSize)
    && g.food.screenWidth == g.w && g.food.screenHeight == g.h && g.food.size == CellSize
    && PlacedOnGrid(g.food)
    && g.score >= 0
    && g.frameIteration >= 0
  }

  /** `reset` (also run by `__init__`): head at the board centre, two cells
      trailing to its left, heading RIGHT, score and frame counter zero, and
      fresh food. None where placing the food raises. The source halves the
      board size with float division; the model asks for even sizes so the
      centre is a whole number. */
  function Reset(w: int, h: int, draw: Draw): (r: Option<Game>)
    requires w % 2 == 0 && h % 2 == 0
    ensures r.Some? <==> Placeable(w, h, CellSize)
    ensures r.Some? ==>
      var g := r.value;
      && Valid(g)
      && g.w == w && g.h == h
      && g.direction == Right && g.score == 0 && g.frameIteration == 0
      && g.head == Point(w / 2, h / 2)
      && |g.snake| == 3
      && Step(g.snake[1], Right, CellSize) == g.snake[0]
      && Step(g.snake[2], Right, CellSize) == g.snake[1]
    ensures r.Some? ==> Some(r.value.food) == NewFood(w, h, CellSize, draw)
  {
    var head := Point(w / 2, h / 2);
    var snake := [head, Point(head.x - CellSize, head.y), Point(head.x - 2 * CellSize, head.y)];
    match NewFood(w, h, CellSize, draw)
    case None => None
    case Some(food) => Some(Game(w, h, Right, head, snake, 0, food, 0))
  }

  /** The one-hot action vector `[straight, right, left]` the agent sends:
      exactly `[1, 0, 0]` is straight, exactly `[0, 1, 0]` is a right turn,
      and every other vector falls through to a left turn. */
  function DecodeAction(v: seq<int>): (a: Action)
    ensures a == GoStraight <==> v == [1, 0, 0]
    ensures a == TurnRight <==> v == [0, 1, 0]
    ensures a == TurnLeft <==> v != [1, 0, 0] && v != [0, 1, 0]
  {
    if v == [1, 0, 0] then GoStraight
    else if v == [0, 1, 0] then TurnRight
    else TurnLeft
  }

  /** The one-hot vector the agent sends for each action. */
  function OneHot(a: Action): seq<int>
  {
    match a
    case GoStraight => [1, 0, 0]
    case TurnRight => [0, 1, 0]
    case TurnLeft => [0, 0, 1]
  }

  /** Decoding the agent's one-hot vector gives back the action. */
  lemma DecodeOneHot(a: Action)
    ensures DecodeAction(OneHot(a)) == a
  {
  }

  /** The heading after `action`: straight keeps it, right is the next
      clockwise direction, left the previous one. */
  function NewDirection(d: Direction, action: Action): (r: Direction)
    ensures action == GoStraight ==> r == d
    ensures action == TurnRight ==> CounterClockwise(r) == d && r != d
    ensures action == TurnLeft ==> Clockwise(r) == d && r != d
    ensures r != Opposite(d)
  {
    TurnsAreInverse(d);
    TurnNeverReverses(d);
    match action
    case GoStraight => d
    case TurnRight => Clockwise(d)
    case TurnLeft => CounterClockwise(d)
  }

  /** `_move`: resolve the heading, then advance the head one cell along it.
      The body is not touched. */
  function MoveHead(g: Game, action: Action): (r: Game)
    ensures r.direction == NewDirection(g.direction, action)
    ensures r.head == Step(g.head, r.direction, CellSize)
    ensures Adjacent(r.head, g.head, CellSize)
    ensures r == g.(direction := r.direction, head := r.head)
  {
    var d := NewDirection(g.direction, action);
    var p := g.head;
    var next :=
      match d
      case Right => Point(p.x + CellSize, p.y)
      case Left => Point(p.x - CellSize, p.y)
      case Down => Point(p.x, p.y + CellSize)
      case Up => Point(p.x, p.y - CellSize);
    g.(direction := d, head := next)
  }

  /** Python's `s[1:]`, which is empty for an empty list. */
  function Rest(s: seq<Point>): (r: seq<Point>)
    ensures forall p :: p in r <==> exists i :: 1 <= i < |s| && s[i] == p
  {
    if |s| == 0 then []
    else
      assert forall i :: 1 <= i < |s| ==> s[1..][i - 1] == s[i];
      s[1..]
  }

  /** `is_collision(pt)`: the cell at `pt` leaves the board, or `pt` is one
      of the segments after the first. */
  function IsCollision(g: Game, pt: Point): (b: bool)
    ensures b <==> !CellOnBoard(pt, g.w, g.h, CellSize)
                   || exists i :: 1 <= i < |g.snake| && g.snake[i] == pt
  {
    if pt.x > g.w - CellSize || pt.x < 0 || pt.y > g.h - CellSize || pt.y < 0 then
      true
    else
      pt in Rest(g.snake)
  }

  /** The head `play_action` moves to. */
  function NextHead(g: Game, action: Action): Point
  {
    Step(g.head, NewDirection(g.direction, action), CellSize)
  }

  /** When `play_action` ends the game, stated on the state before the call:
      the new head's cell leaves the board, the new head lands on any current
      segment (the tail included, which has not moved away yet), or the
      incremented frame counter exceeds 100 times the length the snake has
      once the new head is added. */
  predicate EndsGame(g: Game, action: Action)
  {
    var p := NextHead(g, action);
    || !CellOnBoard(p, g.w, g.h, CellSize)
    || p in g.snake
    || g.frameIteration + 1 > 100 * (|g.snake| + 1)
  }

  /** `play_action`: count the frame, move the head and insert it at the
      front; then end the game, or eat (score and reward, body keeps the new
      head, food re-placed), or drop the tail. `draw` is the random source
      for the food's new position. Only a food that could be placed at all
      exists, hence the precondition. */
  function PlayAction(g: Game, action: Action, draw: Draw): (r: StepResult)
    requires Placeable(g.food.screenWidth, g.food.screenHeight, g.food.size)
    ensures r.game.frameIteration == g.frameIteration + 1
    ensures r.score == r.game.score
    ensures r.game.direction == NewDirection(g.direction, action)
    ensures r.game.head == NextHead(g, action)
    ensures |r.game.snake| >= |g.snake|
    ensures |g.snake| > 0 ==> r.game.snake[0] == r.game.head
    ensures r.game.w == g.w && r.game.h == g.h
    ensures r.game.food == g.food.(position := r.game.food.position)
    ensures r.gameOver <==> EndsGame(g, action)
    ensures r.gameOver ==>
      && r.reward == -10 && r.score == g.score && r.game.food == g.food
      && r.game.snake == [r.game.head] + g.snake
    ensures !r.gameOver && NextHead(g, action) == g.food.position ==>
      && r.reward == 10 && r.score == g.score + 1
      && r.game.snake == [r.game.head] + g.snake
      && r.game.food == RandomizePosition(g.food, draw).value
    ensures !r.gameOver && NextHead(g, action) != g.food.position ==>
      && r.reward == 0 && r.score == g.score && r.game.food == g.food
      && |r.game.snake| == |g.snake|
      && (|g.snake| > 0 ==> r.game.snake[1..] == g.snake[..|g.snake| - 1])
  {
    var frame := g.frameIteration + 1;
    var moved := MoveHead(g, action);
    var g1 := moved.(snake := [moved.head] + g.snake, frameIteration := frame);
    assert g1.snake[1..] == g.snake;
    if IsCollision(g1, g1.head) || frame > 100 * |g1.snake| then
      StepResult(g1, -10, true, g1.score)
    else if g1.head == g1.food.position then
      var g2 := g1.(score := g1.score + 1, food := RandomizePosition(g1.food, draw).value);
      StepResult(g2, 10, false, g2.score)
    else
      var g2 := g1.(snake := g1.snake[..|g1.snake| - 1]);
      StepResult(g2, 0, false, g2.score)
  }

  /** Moving onto the cell the tail occupies now ends the game, because the
      tail is dropped only after the collision test. */
  lemma TailCellCollides(g: Game, action: Action, draw: Draw)
    requires Placeable(g.food.screenWidth, g.food.screenHeight, g.food.size)
    requires |g.snake| > 0 && NextHead(g, action) == g.snake[|g.snake| - 1]
    ensures PlayAction(g, action, draw).gameOver
    ensures PlayAction(g, action, draw).reward == -10
  {
  }

  /** Once the frame counter reaches 100 times the lengthened snake, the next
      step ends the game whatever the action. */
  lemma TimeoutEndsGame(g: Game, action: Action, draw: Draw)
    requires Placeable(g.food.screenWidth, g.food.screenHeight, g.food.size)
    requires g.frameIteration >= 100 * (|g.snake| + 1)
    ensures PlayAction(g, action, draw).gameOver
  {
  }

  /** Per step: the reward is one of -10, 0, 10; +10 exactly when the score
      rises, and then by exactly one; the body grows by one exactly when the
      snake eats or the game ends, and otherwise keeps its length. */
  lemma StepAccounting(g: Game, action: Action, draw: Draw)
    requires Placeable(g.food.screenWidth, g.food.screenHeight, g.food.size)
    ensures var r := PlayAction(g, action, draw);
      && (r.reward == -10 || r.reward == 0 || r.reward == 10)
      && (r.reward == -10 <==> r.gameOver)
      && (r.reward == 10 <==> r.score == g.score + 1)
      && (r.reward != 10 <==> r.score == g.score)
      && |r.game.snake| == |g.snake| + (if r.reward == 0 then 0 else 1)
  {
  }

  /** Every state `play_action` leaves, game over included, satisfies the
      same invariant that `reset` establishes. */
  lemma {:induction false} PlayActionKeepsValid(g: Game, action: Action, draw: Draw)
    requires Valid(g)
    ensures Valid(PlayAction(g, action, draw).game)
  {
    PlacedOnGridIsPlaceable(g.food);
    var r := PlayAction(g, action, draw);
    var grown := [r.game.head] + g.snake;
    assert Adjacent(r.game.head, g.head, CellSize);
    assert Connected(grown, CellSize) by {
      forall i | 0 <= i < |grown| - 1
        ensures Adjacent(grown[i], grown[i + 1], CellSize)
      {
        if i > 0 {
          assert grown[i] == g.snake[i - 1] && grown[i + 1] == g.snake[i];
        }
      }
    }
    if !r.gameOver && NextHead(g, action) != g.food.position {
      assert r.game.snake == grown[..|g.snake|];
      assert Connected(r.game.snake, CellSize) by {
        forall i | 0 <= i < |r.game.snake| - 1
          ensures Adjacent(r.game.snake[i], r.game.snake[i + 1], CellSize)
        {
          assert r.game.snake[i] == grown[i] && r.game.snake[i + 1] == grown[i + 1];
        }
      }
    }
  }

  /** A head on the grid stays on the grid. */
  lemma {:induction false} PlayActionKeepsHeadAligned(g: Game, action: Action, draw: Draw)
    requires Placeable(g.food.screenWidth, g.food.screenHeight, g.food.size)
    requires Aligned(g.head, CellSize)
    ensures Aligned(PlayAction(g, action, draw).game.head, CellSize)
  {
    StepKeepsAlignment(g.head, NewDirection(g.direction, action), CellSize);
  }

  /** The engine's body viewed as a `Snake` object. */
  function AsSnake(g: Game): Snake
  {
    Snake(g.snake, g.direction, CellSize)
  }

  /** When the engine eats, the snake's own food test holds of the food that
      was eaten: the new head is on it. */
  lemma EatingPutsSnakeOnFood(g: Game, action: Action, draw: Draw)
    requires Placeable(g.food.screenWidth, g.food.screenHeight, g.food.size)
    requires |g.snake| > 0 && !EndsGame(g, action) && NextHead(g, action) == g.food.position
    ensures CollidesWithFood(AsSnake(PlayAction(g, action, draw).game), g.food)
    ensures PlayAction(g, action, draw).reward == 10
  {
    assert PlayAction(g, action, draw).game.snake[0] == g.food.position;
  }

  /** On a board made of whole cells, with the head on the grid, the engine's
      `is_collision` at the head is the snake's own boundary test or self
      test. */
  lemma {:induction false} IsCollisionMatchesSnakeChecks(g: Game)
    requires |g.snake| > 0 && g.snake[0] == g.head
    requires Aligned(g.head, CellSize) && g.w % CellSize == 0 && g.h % CellSize == 0
    ensures IsCollision(g, g.head)
        <==> CollidesWithBoundaries(AsSnake(g), g.w, g.h) || CollidesWithSelf(AsSnake(g))
  {
    CellOnBoardIffInBounds(g.head, g.w, g.h, CellSize);
  }

  /** A step that neither ends the game nor eats moves the body exactly as
      `Snake.move` does with the resolved heading. */
  lemma {:induction false} PlainStepIsSnakeMove(g: Game, action: Action, draw: Draw)
    requires Placeable(g.food.screenWidth, g.food.screenHeight, g.food.size)
    requires |g.snake| > 0 && g.snake[0] == g.head
    requires !EndsGame(g, action) && NextHead(g, action) != g.food.position
    ensures PlayAction(g, action, draw).game.snake
         == Move(AsSnake(g).(direction := NewDirection(g.direction, action))).body
  {
    var r := PlayAction(g, action, draw);
    var m := Move(AsSnake(g).(direction := NewDirection(g.direction, action)));
    assert |r.game.snake| == |m.body|;
    forall i | 0 <= i < |m.body|
      ensures r.game.snake[i] == m.body[i]
    {
      if i > 0 {
        assert r.game.snake[i] == g.snake[i - 1];
      }
    }
  }

  /** One agent decision: the action and the random draw food re-placement
      would use. */
  datatype Input = Input(action: Action, draw: Draw)

  /** The game after an episode, whether it ended, how many steps were
      played and the rewards summed. */
  datatype EpisodeResult = EpisodeResult(game: Game, over: bool, steps: nat, reward: int)

  /** Feed `inputs` to `play_action` until the game ends or they run out. */
  function Episode(g: Game, inputs: seq<Input>): (r: EpisodeResult)
    requires Placeable(g.food.screenWidth, g.food.screenHeight, g.food.size)
    ensures r.steps <= |inputs| && (!r.over ==> r.steps == |inputs|)
    ensures r.game.frameIteration == g.frameIteration + r.steps
    ensures r.game.score >= g.score
    ensures |r.game.snake| == |g.snake| + (r.game.score - g.score) + (if r.over then 1 else 0)
    ensures r.reward == 10 * (r.game.score - g.score) - (if r.over then 10 else 0)
    decreases |inputs|
  {
    if |inputs| == 0 then
      EpisodeResult(g, false, 0, 0)
    else
      var s := PlayAction(g, inputs[0].action, inputs[0].draw);
      StepAccounting(g, inputs[0].action, inputs[0].draw);
      if s.gameOver then
        EpisodeResult(s.game, true, 1, s.reward)
      else
        var rest := Episode(s.game, inputs[1..]);
        rest.(steps := rest.steps + 1, reward := rest.reward + s.reward)
  }

  /** The invariant holds throughout an episode. */
  lemma {:induction false} EpisodeKeepsValid(g: Game, inputs: seq<Input>)
    requires Valid(g)
    ensures Valid(Episode(g, inputs).game)
    decreases |inputs|
  {
    PlacedOnGridIsPlaceable(g.food);
    if |inputs| > 0 {
      var s := PlayAction(g, inputs[0].action, inputs[0].draw);
      PlayActionKeepsValid(g, inputs[0].action, inputs[0].draw);
      if !s.gameOver {
        EpisodeKeepsValid(s.game, inputs[1..]);
      }
    }
  }

  /** The default 640 x 480 board: reset always succeeds and lays the snake
      out at (320, 240), (300, 240), (280, 240) heading RIGHT. */
  lemma DefaultReset(draw: Draw)
    ensures Reset(640, 480, draw).Some?
    ensures var g := Reset(640, 480, draw).value;
      && g.snake == [Point(320, 240), Point(300, 240), Point(280, 240)]
      && g.direction == Right && g.score == 0
  {
    assert PyRandom.InRange(0, 0, 620, 20) && PyRandom.InRange(0, 0, 460, 20);
  }

  /** From the default reset, going straight with the food elsewhere moves
      the head to (340, 240) and drops the tail: length 3, score 0, reward 0,
      game not over. Four right turns bring the heading back to RIGHT. */
  lemma DefaultFirstStep(draw: Draw, next: Draw)
    requires Reset(640, 480, draw).value.food.position != Point(340, 240)
    ensures var r := PlayAction(Reset(640, 480, draw).value, GoStraight, next);
      && r.game.snake == [Point(340, 240), Point(320, 240), Point(300, 240)]
      && r.score == 0 && r.reward == 0 && !r.gameOver
    ensures NewDirection(NewDirection(NewDirection(NewDirection(Right, TurnRight), TurnRight), TurnRight), TurnRight) == Right
  {
    DefaultReset(draw);
    FourTurnsAreIdentity(Right);
    StraightFromCentre(Reset(640, 480, draw).value, next);
  }

  /** The first-step scenario, stated on any game laid out as the default
      reset lays it out. */
  lemma StraightFromCentre(g: Game, next: Draw)
    requires Placeable(g.food.screenWidth, g.food.screenHeight, g.food.size)
    requires g.w == 640 && g.h == 480 && g.direction == Right && g.score == 0
    requires g.frameIteration == 0 && g.head == Point(320, 240)
    requires g.snake == [Point(320, 240), Point(300, 240), Point(280, 240)]
    requires g.food.position != Point(340, 240)
    ensures var r := PlayAction(g, GoStraight, next);
      && r.game.snake == [Point(340, 240), Point(320, 240), Point(300, 240)]
      && r.score == 0 && r.reward == 0 && !r.gameOver
  {
    assert NextHead(g, GoStraight) == Point(340, 240);
    assert Point(340, 240) !in g.snake;
    assert !EndsGame(g, GoStraight);
    var r := PlayAction(g, GoStraight, next);
    assert r.game.snake[1..] == g.snake[..2];
    assert r.game.snake == [r.game.snake[0]] + r.game.snake[1..];
  }
}

=== FILE: game_objects.dfy ===
/** The `Food` and `Snake` objects as values: every mutating method becomes a
    function from the old object to the new one. Drawing is not modelled. */
module GameObjects {
  import opened Optional
  import opened Constants
  import opened Grid
  import PyRandom

  /** The two values the random source supplies to one food placement,
      first for x, then for y. */
  datatype Draw = Draw(xDraw: nat, yDraw: nat)

  datatype Food = Food(screenWidth: int, screenHeight: int, size: int, position: Point)

  /** Food can be placed: both `randrange` calls have a non-empty range. */
  predicate Placeable(w: int, h: int, size: int)
  {
    && size != 0
    && PyRandom.InRange(0, 0, w - size, size)
    && PyRandom.InRange(0, 0, h - size, size)
  }

  /** Food on the grid could be placed again on the same board. */
  lemma PlacedOnGridIsPlaceable(f: Food)
    requires PlacedOnGrid(f)
    ensures Placeable(f.screenWidth, f.screenHeight, f.size)
  {
  }

  /** The food sits on the grid strictly inside the placement ranges:
      coordinates are non-negative multiples of the size, below
      `screen - size`. */
  predicate PlacedOnGrid(f: Food)
  {
    && f.size > 0
    && 0 <= f.position.x < f.screenWidth - f.size && f.position.x % f.size == 0
    && 0 <= f.position.y < f.screenHeight - f.size && f.position.y % f.size == 0
  }

  /** `Food.randomize_position`: x from `range(0, screen_width - size, size)`,
      y from `range(0, screen_height - size, size)`; None where `randrange`
      raises. Nothing about the snake is consulted. */
  function RandomizePosition(f: Food, draw: Draw): (r: Option<Food>)
    ensures r.Some? <==> Placeable(f.screenWidth, f.screenHeight, f.size)
    ensures r.Some? ==> r.value == f.(position := r.value.position)
    ensures r.Some? && f.size > 0 ==> PlacedOnGrid(r.value)
  {
    match PyRandom.RandRange(0, f.screenWidth - f.size, f.size, draw.xDraw)
    case None => None
    case Some(x) =>
      match PyRandom.RandRange(0, f.screenHeight - f.size, f.size, draw.yDraw)
      case None => None
      case Some(y) =>
        Some(f.(position := Point(x, y)))
  }

  /** `Food.__init__`: records the screen and cell size, then places itself. */
  function NewFood(w: int, h: int, size: int, draw: Draw): (r: Option<Food>)
    ensures r.Some? <==> Placeable(w, h, size)
    ensures r.Some? ==> r.value.screenWidth == w && r.value.screenHeight == h && r.value.size == size
    ensures r.Some? && size > 0 ==> PlacedOnGrid(r.value)
    ensures r.Some? ==> Some(r.value) == RandomizePosition(Food(w, h, size, r.value.position), draw)
  {
    RandomizePosition(Food(w, h, size, Point(0, 0)), draw)
  }

  /** A new food can start on any grid cell of the placement ranges. */
  lemma {:induction false} NewFoodCanLandAnywhereOnGrid(w: int, h: int, size: int, p: Point)
    requires size > 0
    requires 0 <= p.x < w - size && p.x % size == 0
    requires 0 <= p.y < h - size && p.y % size == 0
    ensures exists draw: Draw :: NewFood(w, h, size, draw) == Some(Food(w, h, size, p))
  {
    var f := Food(w, h, size, Point(0, 0));
    FoodCanLandAnywhereOnGrid(f, p);
    var draw: Draw :| RandomizePosition(f, draw) == Some(f.(position := p));
    assert NewFood(w, h, size, draw) == Some(Food(w, h, size, p));
  }

  /** With a positive cell size, food lands on the grid strictly before the
      last column and the last row. */
  lemma {:induction false} FoodOnGrid(f: Food, draw: Draw)
    requires f.size > 0 && RandomizePosition(f, draw).Some?
    ensures PlacedOnGrid(RandomizePosition(f, draw).value)
    ensures var p := RandomizePosition(f, draw).value.position;
      p.x != f.screenWidth - f.size && p.y != f.screenHeight - f.size
  {
  }

  /** Conversely every such grid cell is a possible placement. */
  lemma {:induction false} FoodCanLandAnywhereOnGrid(f: Food, p: Point)
    requires f.size > 0
    requires 0 <= p.x < f.screenWidth - f.size && p.x % f.size == 0
    requires 0 <= p.y < f.screenHeight - f.size && p.y % f.size == 0
    ensures exists draw: Draw :: RandomizePosition(f, draw) == Some(f.(position := p))
  {
    var dx := PyRandom.RandRangeComplete(p.x, 0, f.screenWidth - f.size, f.size);
    var dy := PyRandom.RandRangeComplete(p.y, 0, f.screenHeight - f.size, f.size);
    assert RandomizePosition(f, Draw(dx, dy)) == Some(f.(position := p));
  }

  /** The snake: its segments (head first), its heading and its cell size. */
  datatype Snake = Snake(body: seq<Point>, direction: Direction, size: int)

  /** `Snake.__init__`: one segment at (x, y), heading RIGHT. */
  function NewSnake(x: int, y: int, size: int): (s: Snake)
    ensures Len(s) == 1 && GetItem(s, 0) == Some(Point(x, y)) && GetItem(s, -1) == Some(Point(x, y))
    ensures s.direction == Right && s.size == size
  {
    Snake([Point(x, y)], Right, size)
  }

  /** `Snake.__len__`. */
  function Len(s: Snake): (r: nat)
    ensures forall i :: GetItem(s, i).Some? <==> -(r as int) <= i < r
  {
    |s.body|
  }

  /** `Snake.__getitem__`, with Python's negative indices counted from the
      end; None where Python raises `IndexError`. */
  function GetItem(s: Snake, i: int): (r: Option<Point>)
    ensures r.Some? <==> -|s.body| <= i < |s.body|
    ensures 0 <= i < |s.body| ==> r == Some(s.body[i])
    ensures -|s.body| <= i < 0 ==> r == Some(s.body[|s.body| + i])
  {
    if 0 <= i < |s.body| then Some(s.body[i])
    else if -|s.body| <= i < 0 then Some(s.body[|s.body| + i])
    else None
  }

  /** A non-negative index and the same index counted from the end name
      the same segment. */
  lemma NegativeIndexAgrees(s: Snake, i: int)
    requires 0 <= i < Len(s)
    ensures GetItem(s, i) == GetItem(s, i - Len(s))
    ensures GetItem(s, i + Len(s)) == None && GetItem(s, i - 2 * Len(s)) == None
  {
  }

  /** `Snake.head`: the first segment. */
  function Head(s: Snake): (p: Point)
    requires Len(s) > 0
    ensures GetItem(s, 0) == Some(p) && GetItem(s, -(Len(s) as int)) == Some(p)
  {
    s.body[0]
  }

  /** `Snake.change_direction`: any direction is accepted, the reverse
      included; nothing else changes. */
  function ChangeDirection(s: Snake, d: Direction): (r: Snake)
    ensures r.direction == d && r.body == s.body && r.size == s.size
  {
    s.(direction := d)
  }

  /** `Snake.turn_left`: one step counter-clockwise; returns the snake and
      the direction it now holds. */
  function TurnSnakeLeft(s: Snake): (r: (Snake, Direction))
    ensures r.1 == r.0.direction && r.0 == ChangeDirection(s, r.1)
    ensures Clockwise(r.1) == s.direction
    ensures r.1 != s.direction && r.1 != Opposite(s.direction)
  {
    TurnsAreInverse(s.direction);
    TurnNeverReverses(s.direction);
    var d := CounterClockwise(s.direction);
    (s.(direction := d), d)
  }

  /** `Snake.turn_right`: one step clockwise; returns the snake and the
      direction it now holds. */
  function TurnSnakeRight(s: Snake): (r: (Snake, Direction))
    ensures r.1 == r.0.direction && r.0 == ChangeDirection(s, r.1)
    ensures CounterClockwise(r.1) == s.direction
    ensures r.1 != s.direction && r.1 != Opposite(s.direction)
  {
    TurnsAreInverse(s.direction);
    TurnNeverReverses(s.direction);
    var d := Clockwise(s.direction);
    (s.(direction := d), d)
  }

  /** Unlike the turns, `change_direction` lets the snake reverse. */
  lemma ChangeDirectionCanReverse(s: Snake)
    ensures ChangeDirection(s, Opposite(s.direction)).direction == Opposite(s.direction)
    ensures ChangeDirection(s, Opposite(s.direction)).direction != s.direction
  {
  }

  /** A right turn followed by a left turn (or the reverse) gives back the
      same snake, and four right turns do too. */
  lemma TurnsRestoreSnake(s: Snake)
    ensures TurnSnakeLeft(TurnSnakeRight(s).0).0 == s
    ensures TurnSnakeRight(TurnSnakeLeft(s).0).0 == s
    ensures TurnSnakeRight(TurnSnakeRight(TurnSnakeRight(TurnSnakeRight(s).0).0).0).0 == s
  {
    FourTurnsAreIdentity(s.direction);
  }

  /** `Snake.move`: insert the head shifted one cell along the heading, then
      drop the last segment. */
  function Move(s: Snake): (r: Snake)
    requires Len(s) > 0
    ensures Len(r) == Len(s) && r.direction == s.direction && r.size == s.size
    ensures forall i :: 0 <= i < Len(s) - 1 ==> r.body[i + 1] == s.body[i]
    ensures var h, h' := Head(s), Head(r);
      && (s.direction == Up ==> h' == Point(h.x, h.y - s.size))
      && (s.direction == Down ==> h' == Point(h.x, h.y + s.size))
      && (s.direction == Right ==> h' == Point(h.x + s.size, h.y))
      && (s.direction == Left ==> h' == Point(h.x - s.size, h.y))
  {
    var h := Step(s.body[0], s.direction, s.size);
    var inserted := [h] + s.body;
    s.(body := inserted[..|inserted| - 1])
  }

  /** Moving keeps a connected body connected. */
  lemma MoveKeepsConnected(s: Snake)
    requires Len(s) > 0 && s.size > 0 && Connected(s.body, s.size)
    ensures Connected(Move(s).body, s.size)
  {
    var r := Move(s);
    assert Adjacent(r.body[0], s.body[0], s.size);
    forall i | 0 <= i < |r.body| - 1
      ensures Adjacent(r.body[i], r.body[i + 1], s.size)
    {
      if i > 0 {
        assert r.body[i] == s.body[i - 1] && r.body[i + 1] == s.body[i];
      }
    }
  }

  /** `Snake.grow`: append a copy of the last segment. */
  function Grow(s: Snake): (r: Snake)
    requires Len(s) > 0
    ensures Len(r) == Len(s) + 1 && r.direction == s.direction && r.size == s.size
    ensures r.body[..Len(s)] == s.body
    ensures GetItem(r, -1) == GetItem(s, -1)
  {
    s.(body := s.body + [s.body[|s.body| - 1]])
  }

  /** After growing, the last two segments share a cell, so a grown snake of
      two or more segments is no longer connected. */
  lemma GrowStacksTail(s: Snake)
    requires Len(s) > 0 && s.size != 0
    ensures GetItem(Grow(s), -1) == GetItem(Grow(s), -2)
    ensures !Connected(Grow(s).body, s.size)
  {
    var r := Grow(s);
    assert !Adjacent(r.body[|r.body| - 2], r.body[|r.body| - 1], s.size);
  }

  /** A snake's body is never empty: construction gives one segment, and
      turning, moving and growing keep at least one. So `body_segments[0]`
      and `[-1]` never raise on a constructed snake. */
  lemma BodyNeverEmpty(s: Snake, x: int, y: int, size: int, d: Direction)
    ensures Len(NewSnake(x, y, size)) > 0
    ensures Len(s) > 0 ==> Len(ChangeDirection(s, d)) > 0
    ensures Len(s) > 0 ==> Len(TurnSnakeLeft(s).0) > 0 && Len(TurnSnakeRight(s).0) > 0
    ensures Len(s) > 0 ==> Len(Move(s)) > 0 && Len(Grow(s)) > 0
  {
  }

  /** `Snake.check_collision_with_boundaries`: the head is off the board
      [0, width) x [0, height). */
  function CollidesWithBoundaries(s: Snake, width: int, height: int): (b: bool)
    requires Len(s) > 0
    ensures b <==> !InBounds(Head(s), width, height)
  {
    var p := s.body[0];
    p.x >= width || p.x < 0 || p.y >= height || p.y < 0
  }

  /** `Snake.check_collision_with_self`: the head reappears further back. */
  function CollidesWithSelf(s: Snake): (b: bool)
    requires Len(s) > 0
    ensures b <==> exists i :: 1 <= i < Len(s) && s.body[i] == Head(s)
  {
    assert forall i :: 1 <= i < Len(s) ==> s.body[1..][i - 1] == s.body[i];
    s.body[0] in s.body[1..]
  }

  /** `Snake.check_collision_with_food`: any segment, head included, is on
      the food. */
  function CollidesWithFood(s: Snake, f: Food): (b: bool)
    ensures b <==> exists i :: 0 <= i < Len(s) && s.body[i] == f.position
  {
    f.position in s.body
  }
}

=== FILE: grid.dfy ===
/** Grid geometry shared by the snake and the engine: one-cell steps,
    board bounds, grid alignment and cell adjacency. */
module Grid {
  import opened Constants
  import Arith

  function Abs(n: int): nat
  {
    if n < 0 then -n else n
  }

  /** The point `delta` pixels from `p` in direction `d`; y grows downward,
      so UP decreases y and DOWN increases it. */
  function Step(p: Point, d: Direction, delta: int): (q: Point)
    ensures q.x == p.x || q.y == p.y
    ensures Abs(q.x - p.x) + Abs(q.y - p.y) == Abs(delta)
  {
    match d
    case Up => Point(p.x, p.y - delta)
    case Right => Point(p.x + delta, p.y)
    case Down => Point(p.x, p.y + delta)
    case Left => Point(p.x - delta, p.y)
  }

  /** Stepping back the opposite way undoes a step. */
  lemma StepOppositeUndoes(p: Point, d: Direction, delta: int)
    ensures Step(Step(p, d, delta), Opposite(d), delta) == p
  {
  }

  /** Inside the half-open board [0, w) x [0, h). */
  predicate InBounds(p: Point, w: int, h: int)
  {
    0 <= p.x < w && 0 <= p.y < h
  }

  /** Both coordinates are multiples of the cell size `c`. */
  predicate Aligned(p: Point, c: int)
    requires c > 0
  {
    p.x % c == 0 && p.y % c == 0
  }

  /** `a` and `b` are orthogonal neighbours exactly `c` pixels apart. */
  predicate Adjacent(a: Point, b: Point, c: int)
  {
    || (a.x == b.x && Abs(a.y - b.y) == c)
    || (a.y == b.y && Abs(a.x - b.x) == c)
  }

  /** Adjacency is exactly "one step of `c` in some direction". */
  lemma AdjacentIffStep(a: Point, b: Point, c: int)
    requires c > 0
    ensures Adjacent(a, b, c) <==> exists d: Direction :: Step(b, d, c) == a
  {
    if Adjacent(a, b, c) {
      var d: Direction;
      if a.x == b.x && a.y == b.y - c {
        d := Up;
      } else if a.x == b.x {
        d := Down;
      } else if a.x == b.x + c {
        d := Right;
      } else {
        d := Left;
      }
      assert Step(b, d, c) == a;
    }
  }

  /** A step of one cell keeps a grid-aligned point on the grid. */
  lemma StepKeepsAlignment(p: Point, d: Direction, c: int)
    requires c > 0 && Aligned(p, c)
    ensures Aligned(Step(p, d, c), c)
  {
    Arith.ModShift(p.x, 1, c);
    Arith.ModShift(p.x, -1, c);
    Arith.ModShift(p.y, 1, c);
    Arith.ModShift(p.y, -1, c);
  }

  /** Consecutive segments of `body` are neighbouring cells of size `c`. */
  predicate Connected(body: seq<Point>, c: int)
  {
    forall i :: 0 <= i < |body| - 1 ==> Adjacent(body[i], body[i + 1], c)
  }

  /** The whole c-by-c cell whose top-left corner is `p` lies on the board. */
  predicate CellOnBoard(p: Point, w: int, h: int, c: int)
  {
    0 <= p.x && p.x + c <= w && 0 <= p.y && p.y + c <= h
  }

  /** On the grid, "the cell fits on the board" and "the corner lies in
      [0, w) x [0, h)" agree. */
  lemma {:induction false} CellOnBoardIffInBounds(p: Point, w: int, h: int, c: int)
    requires c > 0 && Aligned(p, c) && w % c == 0 && h % c == 0
    ensures CellOnBoard(p, w, h, c) <==> InBounds(p, w, h)
  {
    if 0 <= p.x < w && p.x + c > w {
      AlignedGap(p.x, w, c);
    }
    if 0 <= p.y < h && p.y + c > h {
      AlignedGap(p.y, h, c);
    }
  }

  /** Two multiples of `c` that differ are at least `c` apart. */
  lemma {:induction false} AlignedGap(a: int, b: int, c: int)
    requires c > 0 && a % c == 0 && b % c == 0 && a < b
    ensures a + c <= b
  {
    var qa, qb := a / c, b / c;
    assert a == qa * c && b == qb * c;
    if qb <= qa {
      Arith.MulMonotone(qb, qa, c);
    } else {
      Arith.MulMonotone(qa + 1, qb, c);
    }
  }

  /** Off the grid the two disagree: a point half a cell from the right edge
      is inside [0, w) but its cell hangs over the edge. */
  lemma OffGridCellOverhangs()
    ensures InBounds(Point(630, 0), 640, 480)
    ensures !CellOnBoard(Point(630, 0), 640, 480, 20)
  {
  }
}

=== FILE: optional.dfy ===
/** A value that may be absent: the model's stand-in for a Python call that
    raises (`ValueError`, `IndexError`) instead of returning. */
module Optional {

  datatype Option<+T> = None | Some(value: T)
}

=== FILE: pyrandom.dfy ===
/** Python's `random.randrange(start, stop, step)` with the random source made
    explicit: `draw` stands for the value `_randbelow` would produce, reduced
    modulo the length of the range. */
module PyRandom {
  import opened Optional
  import Arith

  /** Python's `//`, which rounds toward negative infinity. */
  function FloorDiv(a: int, b: int): (q: int)
    requires b != 0
    ensures b > 0 ==> q * b <= a < q * b + b
    ensures b < 0 ==> q * b >= a > q * b + b
  {
    if b > 0 then a / b else (-a) / (-b)
  }

  /** How many values `range(start, stop, step)` holds (possibly <= 0 when
      it is empty). */
  function RangeLength(start: int, stop: int, step: int): int
    requires step != 0
  {
    if step > 0 then FloorDiv(stop - start + step - 1, step)
    else FloorDiv(stop - start + step + 1, step)
  }

  /** Membership in `range(start, stop, step)`, stated without counting. */
  predicate InRange(v: int, start: int, stop: int, step: int)
  {
    || (step > 0 && start <= v < stop && (v - start) % step == 0)
    || (step < 0 && stop < v <= start && (start - v) % (-step) == 0)
  }

  /** The range is empty exactly when no value lies in it. */
  lemma RangeLengthPositive(start: int, stop: int, step: int)
    requires step != 0
    ensures RangeLength(start, stop, step) > 0 <==> InRange(start, start, stop, step)
  {
  }

  lemma BoundBelowLength(k: int, n: int, step: int, width: int)
    requires step > 0 && 0 <= k < n
    requires n * step <= width + step - 1
    ensures 0 <= k * step < width
  {
    Arith.MulMonotone(k, n - 1, step);
    assert (n - 1) * step == n * step - step;
  }

  /** The `k`-th value of a non-empty range lies in it. */
  lemma {:induction false} NthValueInRange(start: int, stop: int, step: int, k: int)
    requires step != 0 && 0 <= k < RangeLength(start, stop, step)
    ensures InRange(start + step * k, start, stop, step)
  {
    var n := RangeLength(start, stop, step);
    var v := start + step * k;
    if step > 0 {
      BoundBelowLength(k, n, step, stop - start);
      assert v - start == k * step;
      Arith.MultipleMod(k, step);
    } else {
      BoundBelowLength(k, n, -step, start - stop);
      assert start - v == k * (-step);
      Arith.MultipleMod(k, -step);
    }
  }

  /** `random.randrange(start, stop, step)`: a value of the range, or None
      where Python raises `ValueError` (zero step or empty range). */
  function RandRange(start: int, stop: int, step: int, draw: nat): (r: Option<int>)
    ensures r.None? <==> (step == 0 || !InRange(start, start, stop, step))
    ensures r.Some? ==> InRange(r.value, start, stop, step)
  {
    if step == 0 then None
    else
      var n := RangeLength(start, stop, step);
      RangeLengthPositive(start, stop, step);
      if n <= 0 then None
      else
        NthValueInRange(start, stop, step, draw % n);
        Some(start + step * (draw % n))
  }

  /** Every value of the range can be drawn: the draw that yields it is
      returned. */
  lemma {:induction false} RandRangeComplete(v: int, start: int, stop: int, step: int)
    returns (draw: nat)
    requires InRange(v, start, stop, step)
    ensures RandRange(start, stop, step, draw) == Some(v)
  {
    var n := RangeLength(start, stop, step);
    if step > 0 {
      var k := (v - start) / step;
      assert v == start + step * k;
      assert k < n by {
        if k >= n {
          Arith.MulMonotone(n, k, step);
        }
      }
      assert k % n == k by { Arith.DivModUnique(k, n, 0, k); }
      draw := k;
    } else {
      var k := (start - v) / (-step);
      assert v == start + step * k;
      assert k < n by {
        if k >= n {
          Arith.MulMonotone(n, k, -step);
        }
      }
      assert k % n == k by { Arith.DivModUnique(k, n, 0, k); }
      draw := k;
    }
  }
}
